=== FILE: README.md ===
# ImageHoster upload path in Dafny

ImageHoster is a small Express service: a browser posts one image in the
multipart field `image` to `/upload`. multer checks it with a file filter and
writes accepted files to `uploads/` under a timestamped name. The route then
records the file in MongoDB and answers with a page linking to
`/uploads/<stored name>`. This project models the decisions along that path
as pure functions over immutable data and proves what the code promises
about them.

- `Ascii` (`ascii.dfy`): `toLowerCase` restricted to ASCII letters.
- `Paths` (`paths.dfy`): Node's POSIX `path.extname`. Trailing separators are
  ignored, only the last segment counts, the last dot in it starts the
  extension, and a segment whose only dot is its first character (such as
  `.png`, but not `.a.png`) or the segment `..` has none.
- `Decimal` (`decimal.dfy`): the decimal text of the millisecond clock
  reading, and its inverse.
- `Naming` (`naming.dfy`): the stored file name `<millis>-<original name>`
  and the public URL `protocol://host/uploads/<stored name>`.
- `UploadFilter` (`filter.dfy`): the file filter with its two allow-lists and
  its error message.
- `UploadHandler` (`handler.dfy`): multer's single-file upload and the route's
  callback, composed into one request. The outcomes are an upload error page,
  a no-file page, a database error page and a success page showing the URL.
  Alongside the page, the model records the file name it asked the disk to
  write and the document it handed to `save()`.

The clock, the disk write and the database save are inputs. The clock is
read twice: once when the disk storage names the file and once when the
document's `uploadDate` default is filled in, as two `nat`s of milliseconds.
The disk write is a `DiskWrite` outcome and the save a `SaveResult`
outcome. Multipart parsing is summarised as an `Incoming` value: a parse
error, no file part, or a file part. A file part carries what the
multipart parser hands to multer: the declared type lower-cased without
parameters, and the base name of the client's file name, which is empty for
a name ending in a separator and for `.` and `..`. multer skips a file part
whose name is empty, so the route sees no file for it.

The filter checks the MIME type and the extension against two separate lists
and does not relate them. A file declared `image/gif` but named `cat.png`
therefore passes. One might expect a mismatched type and extension to be
refused; the code does not do that, and the model proves the mismatch is
accepted (`UploadFilter.MismatchedPairAccepted`,
`UploadFilter.AllowedMimesInterchangeable`).

## Model

| member | source | states |
|---|---|---|
| Ascii.ToLower | app.js:52 | lower-casing keeps the length and maps each character on its own, capitals to small letters and everything else to itself |
| Ascii.ToLowerIdempotent | app.js:52 | lower-casing an already lower-cased name changes nothing |
| Ascii.LowerCharReflects | app.js:52 | lower-casing never turns any other character into `.` or `/`, so dots and separators stay where they were |
| Paths.Extname | app.js:52 | the extension is a slice that ends where the trailing separators begin; when non-empty it starts with a dot that follows a character of its own segment, and no dot or separator comes after that dot |
| Paths.ExtnameAt | app.js:52 | a dot that follows a character of its segment and is the last dot before the trailing separators starts the extension, unless the segment is `..` |
| Paths.ExtnameNoDot | app.js:52 | a name without a dot has the empty extension |
| Paths.ExtnameDotFile | app.js:52 | a segment whose only dot is its first character (such as `dir/.png`) has the empty extension |
| Paths.ExtnameOfStemAndTail | app.js:52 | `stem.tail` has extension `.tail` whatever dots the stem holds, `a..png` included, unless the name's last segment is `..` |
| Paths.ExtnameDotDot | app.js:52 | the segment `..` has the empty extension |
| Paths.ExtStartLandmarks | app.js:52 | where the extension starts depends only on the positions of dots and separators |
| Paths.ExtnameLower | app.js:52 | taking the extension and lower-casing commute |
| Decimal.NatToString | app.js:39 | the timestamp text is a non-empty digit string without a leading zero |
| Decimal.ParseNatToString | app.js:39 | reading the timestamp text back gives the timestamp |
| Decimal.NatToStringOfParse | app.js:39 | every digit string without a leading zero is the text of the number it denotes |
| Decimal.NatToStringInjective | app.js:39 | different timestamps have different texts |
| Naming.StoredName | app.js:39 | the stored name is longer than the client's name and ends with it unchanged |
| Naming.SplitStoredName | app.js:39 | splitting a name at its first dash yields a tail that the name ends with |
| Naming.StoredNameRoundTrip | app.js:39 | cutting a stored name at its first dash gives back the timestamp and the client's name, even when that name holds dashes |
| Naming.SplitStoredNameSound | app.js:39 | whatever splits into a timestamp and a name was built from them |
| Naming.StoredNameIff | app.js:39 | a name splits into a timestamp and a name exactly when it is the stored name built from them |
| Naming.StoredNameInjective | app.js:37-41 | two uploads share a stored name only if both the timestamp and the client's name agree |
| Naming.ImageUrl | app.js:93 | the URL has the protocol, then `://`, then the host, and ends with `/uploads/` followed by the stored name |
| Naming.ImageUrlNamesFile | app.js:15 | for a name without `/`, the URL text after its last `/` is exactly that name |
| Naming.ImageUrlEndsWithName | app.js:93 | the link to a stored upload ends with the client's file name |
| UploadFilter.FileFilter | app.js:46-59 | a rejection always carries the message `Error: Images only!` |
| UploadFilter.AcceptedExtensionIsTail | app.js:52-54 | an accepted extension is a tail of the name, within the last segment |
| UploadFilter.ImageTailIsExtension | app.js:52-54 | a tail that lower-cases to an allowed extension is what `path.extname` returns |
| UploadFilter.FilterAcceptsIff | app.js:49-55 | the filter accepts exactly when the MIME type is in the list and the name ends, within its last segment, in a tail that lower-cases to an allowed extension |
| UploadFilter.ExtensionCaseInsensitive | app.js:52 | names that agree up to case get the same verdict |
| UploadFilter.MimeComparedExactly | app.js:54 | once a name is accepted, another MIME type is accepted exactly when it is literally in the list |
| UploadFilter.RejectsDisallowedExtension | app.js:54-57 | a name whose extension is not allowed is rejected under any MIME type |
| UploadFilter.RejectsDisallowedMime | app.js:54-57 | a MIME type not in the list is rejected under any name |
| UploadFilter.LastExtensionDecides | app.js:52-54 | for `stem.tail` only `.tail` decides, so `a.png.exe` is judged as `.exe` and `a..png` as `.png` |
| UploadFilter.DotFileRejected | app.js:52-57 | a name whose last segment has its only dot as its first character (such as `.png`) is rejected under any MIME type |
| UploadFilter.NoDotRejected | app.js:52-57 | a name without a dot is rejected |
| UploadFilter.EmptyNameRejected | app.js:52-57 | an empty name is rejected under any MIME type |
| UploadFilter.UpperCaseMimeRejected | app.js:54-57 | the filter itself compares the type with its case: `IMAGE/PNG` is rejected whatever the name (the parser lower-cases declared types before the filter sees them) |
| UploadFilter.AllowedMimesInterchangeable | app.js:54 | any two allowed MIME types get the same verdict for a name |
| UploadFilter.MismatchedPairAccepted | app.js:49-55 | a file declared `image/gif` whose name ends in `.png` is accepted |
| UploadHandler.Upload | app.js:33-60 | a write is attempted exactly for a file part with a non-empty name that the filter accepts, under its stored name; a file is stored exactly when that write succeeds, with the stored name, the client's name and the MIME type; no-file is reported exactly for a missing file part or one whose parsed name is empty, which multer skips before the filter; a rejection fails with `Error: Images only!` |
| UploadHandler.NewImage | app.js:87-90 | the document copies the stored name and the client's name, and its upload date is the clock reading at construction, the schema default of app.js:27 |
| UploadHandler.Respond | app.js:77-104 | an upload error wins and saves nothing, a missing file saves nothing, a save is attempted exactly for a stored file, success exactly when that save succeeds with the URL of the stored name, the saved document carrying the stored name, the client's name and the construction time, and a database error exactly when it fails |
| UploadHandler.HandleUpload | app.js:76-105 | a record is saved only for the file that was written, and a save is attempted exactly when the page is a success or a database error |
| UploadHandler.NoSaveUnlessAccepted | app.js:54-91 | nothing is saved unless the file part passed the filter and was written, and the saved record names the written file |
| UploadHandler.RejectedFileLeavesNoTrace | app.js:54-79 | a refused file gets the `Error: Images only!` page and is neither written nor saved |
| UploadHandler.MissingFileLeavesNoTrace | app.js:81-83 | a request without a file part, or with an empty-named one, gets the no-file page and has no side effects |
| UploadHandler.ParseErrorWins | app.js:77-80 | a multipart error gets the upload error page with its message, and nothing is written or saved |
| UploadHandler.WriteFailureReported | app.js:37-80 | when writing an accepted file fails, the storage error is shown and nothing is saved |
| UploadHandler.SuccessIff | app.js:85-101 | the success page is sent exactly when the file part passed the filter, was written and its record saved |
| UploadHandler.SuccessPageContents | app.js:87-93 | the success page links to the URL of the stored name, which ends with the client's name, and the document saved before it holds exactly the stored name, the client's name and the construction time |
| UploadHandler.SaveFailureAfterWrite | app.js:85-104 | the database error page is sent exactly when an accepted, written file fails to save, and the written file stays |
| UploadHandler.NoDeduplication | app.js:39 | the same file uploaded at two different times is written under two different names |
| UploadHandler.SuccessLinkNamesStoredFile | app.js:15 | for a parsed file name, the success link's text after its last `/` is exactly the stored name |

## Left out

- Express routing, CORS, static serving of `public/` and `uploads/`, and the
  HTML upload form: these are framework wiring, not decisions.
- multer's multipart parsing, its field-name check and its limits: parsing is
  summarised by the `Incoming` value.
- The parser's normalisation of the file part: cutting the file name to its
  base name (after the last `/` or `\`, with `.` and `..` becoming empty)
  and lower-casing the declared type without its parameters happen before
  multer and are not modelled. `FilePart` carries their results, and
  `UploadHandler.IsParsedName` states what a parsed name satisfies. The model
  also accepts inputs the parser never produces, such as `a/cat.png` or
  `IMAGE/PNG`, and its verdicts on them describe the filter and the route
  alone.
- The file write itself and the `uploads/` destination: the write's outcome
  is an input. How the written bytes relate to the request is not modelled.
- The MongoDB connection and `save()`: the save's outcome is an input. The
  server's clock reading for the `uploadDate` default is an input too, and
  nothing relates it to the reading that named the file.
- `Date.now()`: the clock reading is an input in whole milliseconds. Two
  uploads with the same name in the same millisecond get the same stored
  name (`Naming.StoredNameInjective`). What the file system then does with
  the second write is not modelled, because requests are modelled one at a
  time.
- Decimal.NatToString: numbers of 10^21 and above, which JavaScript writes in
  exponent form, are written in plain digits. Millisecond clocks do not reach
  them.
- Ascii.ToLower: lower-cases ASCII letters only. Full Unicode case mapping,
  which may change a string's length, is not modelled.
- Paths.Extname: the POSIX variant only. The Windows separator `\` is an
  ordinary character.
- Naming.ImageUrlNamesFile: states only that the URL text after its last `/`
  is the stored name, for names without `/`. The link is built without
  percent-encoding, so a name holding `?` or `#` ends the path early in a
  browser, and `%` escapes are decoded by the static route. How a browser
  splits the link and how Express maps the path to a file are not modelled.
- UploadHandler.SuccessLinkNamesStoredFile: does not promise that the static
  `/uploads` route serves the written file. A parsed name may hold `?`, `#`
  or `%` (`a?b.png` is accepted), and the unencoded link then misses the file.
- The text and markup of the four pages: each page is modelled by its kind
  and its data, not its HTML.
- Concurrency between requests, the server's startup and logging.

=== FILE: ascii.dfy ===
/** ASCII case mapping, the part of JavaScript's `String.prototype.toLowerCase`
    that the upload filter relies on. */
module Ascii {

  predicate IsUpper(c: char) {
    'A' <= c <= 'Z'
  }

  /** Lower-cases an ASCII capital letter and leaves every other character alone. */
  function LowerChar(c: char): char {
    if IsUpper(c) then (c as int - 'A' as int + 'a' as int) as char else c
  }

  /** `s.toLowerCase()` restricted to ASCII letters. */
  function ToLower(s: string): (r: string)
    ensures |r| == |s|
    ensures forall i :: 0 <= i < |s| ==> r[i] == LowerChar(s[i])
  {
    seq(|s|, i requires 0 <= i < |s| => LowerChar(s[i]))
  }

  /** A character that is not a capital letter is the image of itself only:
      lower-casing never produces `.` or `/` from anything else. */
  lemma LowerCharReflects(c: char, x: char)
    requires !IsUpper(x) && !('a' <= x <= 'z')
    ensures LowerChar(c) == x <==> c == x
  {
  }

  /** Lower-casing twice is lower-casing once. */
  lemma ToLowerIdempotent(s: string)
    ensures ToLower(ToLower(s)) == ToLower(s)
  {
    var once := ToLower(s);
    var twice := ToLower(once);
    assert forall i :: 0 <= i < |s| ==> twice[i] == once[i];
  }

  /** Lower-casing works character by character, so it distributes over slicing. */
  lemma ToLowerSlice(s: string, i: nat, j: nat)
    requires i <= j <= |s|
    ensures ToLower(s[i..j]) == ToLower(s)[i..j]
  {
    var l := ToLower(s[i..j]);
    assert forall k :: 0 <= k < j - i ==> l[k] == ToLower(s)[i..j][k];
  }
}

=== FILE: common.dfy ===
/** Small shared vocabulary: an optional value. */
module Common {

  datatype Option<+T> = None | Some(value: T)

  /** True iff `suffix` is a suffix of `s`. */
  predicate IsSuffix<T(==)>(suffix: seq<T>, s: seq<T>) {
    |suffix| <= |s| && s[|s| - |suffix|..] == suffix
  }
}

=== FILE: decimal.dfy ===
/** Decimal rendering of the millisecond timestamp, as JavaScript's
    `Date.now() + '-'` turns the number into text, and its inverse. */
module Decimal {

  predicate IsDigit(c: char) {
    '0' <= c <= '9'
  }

  predicate AllDigits(s: string) {
    forall i :: 0 <= i < |s| ==> IsDigit(s[i])
  }

  /** A non-empty digit string with no leading zero (except `0` itself):
      the only shape `NatToString` produces. */
  predicate IsCanonical(s: string) {
    s != [] && AllDigits(s) && (s[0] == '0' ==> |s| == 1)
  }

  function DigitValue(c: char): (d: nat)
    requires IsDigit(c)
    ensures d < 10
  {
    c as int - '0' as int
  }

  function DigitChar(d: nat): (c: char)
    requires d < 10
    ensures IsDigit(c) && DigitValue(c) == d
  {
    ('0' as int + d) as char
  }

  /** The decimal digits of `n`, most significant first. */
  function NatToString(n: nat): (s: string)
    ensures IsCanonical(s)
    ensures n < 10 <==> |s| == 1
  {
    if n < 10 then [DigitChar(n)] else NatToString(n / 10) + [DigitChar(n % 10)]
  }

  /** The number a digit string denotes. */
  function ParseNat(s: string): nat
    requires AllDigits(s)
  {
    if s == [] then 0 else 10 * ParseNat(s[..|s| - 1]) + DigitValue(s[|s| - 1])
  }

  /** Reading back the digits of `n` gives `n`. */
  lemma {:induction false} ParseNatToString(n: nat)
    ensures ParseNat(NatToString(n)) == n
  {
    var s := NatToString(n);
    if n >= 10 {
      ParseNatToString(n / 10);
      assert s[..|s| - 1] == NatToString(n / 10);
    }
  }

  /** A digit string without a leading zero denotes a positive number. */
  lemma {:induction false} ParseNatPositive(s: string)
    requires s != [] && AllDigits(s) && s[0] != '0'
    ensures ParseNat(s) >= 1
    decreases |s|
  {
    if |s| > 1 {
      ParseNatPositive(s[..|s| - 1]);
    }
  }

  /** Every canonical digit string is the rendering of the number it denotes. */
  lemma {:induction false} NatToStringOfParse(s: string)
    requires IsCanonical(s)
    ensures NatToString(ParseNat(s)) == s
    decreases |s|
  {
    if |s| > 1 {
      var init := s[..|s| - 1];
      ParseNatPositive(init);
      NatToStringOfParse(init);
      var n := ParseNat(s);
      assert n / 10 == ParseNat(init) && n % 10 == DigitValue(s[|s| - 1]);
      assert s == init + [s[|s| - 1]];
    }
  }

  /** Distinct timestamps render to distinct digit strings. */
  lemma NatToStringInjective(a: nat, b: nat)
    ensures NatToString(a) == NatToString(b) ==> a == b
  {
    ParseNatToString(a);
    ParseNatToString(b);
  }
}

=== FILE: filter.dfy ===
/** The upload filter: multer's `fileFilter` (app.js:46-59), which decides
    from the declared MIME type and the client's file name alone whether a
    file may be stored. */
module UploadFilter {
  import opened Ascii
  import opened Paths

  const AllowedMimes: seq<string> := ["image/jpeg", "image/png", "image/gif", "image/jpg", "image/webp"]
  const AllowedExts: seq<string> := [".jpeg", ".jpg", ".png", ".gif", ".webp"]

  /** The message of the error the filter hands to multer on rejection. */
  const ImagesOnly: string := "Error: Images only!"

  /** What the filter passes to its callback: `cb(null, true)` or `cb(new Error(message))`. */
  datatype Verdict = Accept | Reject(message: string)

  function FileFilter(mimetype: string, originalname: string): (v: Verdict)
    ensures v.Reject? ==> v.message == ImagesOnly
  {
    if mimetype in AllowedMimes && ToLower(Extname(originalname)) in AllowedExts then Accept
    else Reject(ImagesOnly)
  }

  /** An independent reading of the extension rule, without segments or last
      dots: after trailing separators are dropped, the name ends in a tail that
      lower-cases to an allowed extension, and that tail is preceded by at
      least one character of the same path segment. */
  predicate EndsInImageExtension(name: string) {
    var n := TrimEnd(name);
    exists k :: 0 < k < n && name[k - 1] != '/' && ToLower(name[k..n]) in AllowedExts
  }

  /** Every allowed extension is a dot followed by at least three lower-case letters. */
  lemma AllowedExtsShape(x: string)
    requires x in AllowedExts
    ensures |x| >= 4 && x[0] == '.'
    ensures forall i :: 0 < i < |x| ==> 'a' <= x[i] <= 'z'
  {
  }

  /** A tail that lower-cases to an allowed extension is a dot followed by
      characters that are neither dots nor separators. */
  lemma ImageTailShape(s: string)
    requires ToLower(s) in AllowedExts
    ensures |s| >= 4 && s[0] == '.'
    ensures forall i :: 0 < i < |s| ==> s[i] != '.' && s[i] != '/'
  {
    AllowedExtsShape(ToLower(s));
    LowerCharReflects(s[0], '.');
    forall i | 0 < i < |s|
      ensures s[i] != '.' && s[i] != '/'
    {
      LowerCharReflects(s[i], '.');
      LowerCharReflects(s[i], '/');
    }
  }

  /** An accepted extension sits at the end of the name, after a character of
      its own segment. */
  lemma AcceptedExtensionIsTail(originalname: string)
    requires ToLower(Extname(originalname)) in AllowedExts
    ensures EndsInImageExtension(originalname)
  {
    var n := TrimEnd(originalname);
    var e := Extname(originalname);
    var k := n - |e|;
    assert originalname[k..n] == e;
  }

  /** A tail that lower-cases to an allowed extension is the extension `path.extname` finds. */
  lemma ImageTailIsExtension(originalname: string)
    requires EndsInImageExtension(originalname)
    ensures ToLower(Extname(originalname)) in AllowedExts
  {
    var n := TrimEnd(originalname);
    var k :| 0 < k < n && originalname[k - 1] != '/' && ToLower(originalname[k..n]) in AllowedExts;
    var tail := originalname[k..n];
    ImageTailShape(tail);
    assert forall j :: k < j < n ==> originalname[j] == tail[j - k];
    ExtnameAt(originalname, k);
  }

  /** The filter accepts exactly when the MIME type is one of the five allowed
      strings, compared exactly, and the name ends in an allowed extension,
      compared without regard to case. */
  lemma FilterAcceptsIff(mimetype: string, originalname: string)
    ensures FileFilter(mimetype, originalname).Accept?
      <==> mimetype in AllowedMimes && EndsInImageExtension(originalname)
  {
    if ToLower(Extname(originalname)) in AllowedExts {
      AcceptedExtensionIsTail(originalname);
    }
    if EndsInImageExtension(originalname) {
      ImageTailIsExtension(originalname);
    }
  }

  /** Names that agree up to ASCII case get the same verdict. */
  lemma ExtensionCaseInsensitive(mimetype: string, name1: string, name2: string)
    requires ToLower(name1) == ToLower(name2)
    ensures FileFilter(mimetype, name1) == FileFilter(mimetype, name2)
  {
    ExtnameLower(name1);
    ExtnameLower(name2);
    ToLowerIdempotent(Extname(name1));
    ToLowerIdempotent(Extname(name2));
  }

  /** The MIME type is compared exactly: a name the filter accepts under an
      allowed type is rejected under a type outside the list, whatever its
      spelling. */
  lemma MimeComparedExactly(mimetype: string, other: string, originalname: string)
    requires FileFilter(mimetype, originalname).Accept?
    ensures FileFilter(other, originalname).Accept? <==> other in AllowedMimes
  {
  }

  /** One side alone is not enough: a name whose extension is not allowed
      is rejected under any MIME type. */
  lemma RejectsDisallowedExtension(mimetype: string, originalname: string)
    requires ToLower(Extname(originalname)) !in AllowedExts
    ensures FileFilter(mimetype, originalname) == Reject(ImagesOnly)
  {
  }

  /** One side alone is not enough: a MIME type outside the list is rejected
      whatever the name. */
  lemma RejectsDisallowedMime(mimetype: string, originalname: string)
    requires mimetype !in AllowedMimes
    ensures FileFilter(mimetype, originalname) == Reject(ImagesOnly)
  {
  }

  /** The empty extension is not an allowed one. */
  lemma EmptyExtensionNotAllowed()
    ensures ToLower("") !in AllowedExts
  {
  }

  /** Only the text after the last dot decides: for a name `stem.tail`,
      whatever the stem holds (`a.png.exe` included), the verdict is that of
      the extension `.tail` alone. */
  lemma LastExtensionDecides(mimetype: string, stem: string, tail: string)
    requires stem != [] && stem[|stem| - 1] != '/'
    requires !(tail == [] && stem[|stem| - 1] == '.' && (|stem| == 1 || stem[|stem| - 2] == '/'))
    requires forall k :: 0 <= k < |tail| ==> tail[k] != '.' && tail[k] != '/'
    ensures FileFilter(mimetype, stem + "." + tail).Accept?
      <==> mimetype in AllowedMimes && ToLower("." + tail) in AllowedExts
  {
    ExtnameOfStemAndTail(stem, tail);
  }

  /** A name whose last segment has its only dot as its first character
      (such as `.png`) has no extension and is rejected. */
  lemma DotFileRejected(mimetype: string, dir: string, rest: string)
    requires dir == [] || dir[|dir| - 1] == '/'
    requires forall k :: 0 <= k < |rest| ==> rest[k] != '.' && rest[k] != '/'
    ensures FileFilter(mimetype, dir + "." + rest) == Reject(ImagesOnly)
  {
    ExtnameDotFile(dir, rest);
    EmptyExtensionNotAllowed();
    RejectsDisallowedExtension(mimetype, dir + "." + rest);
  }

  /** A name without any dot has no extension and is rejected. */
  lemma NoDotRejected(mimetype: string, name: string)
    requires forall k :: 0 <= k < |name| ==> name[k] != '.'
    ensures FileFilter(mimetype, name) == Reject(ImagesOnly)
  {
    ExtnameNoDot(name);
    EmptyExtensionNotAllowed();
    RejectsDisallowedExtension(mimetype, name);
  }

  /** A file with an empty name is rejected, whatever its type. */
  lemma EmptyNameRejected(mimetype: string)
    ensures FileFilter(mimetype, "") == Reject(ImagesOnly)
  {
    NoDotRejected(mimetype, "");
  }

  /** `IMAGE/PNG` is not an allowed type: the list is matched with its case. */
  lemma UpperCaseMimeNotAllowed()
    ensures "IMAGE/PNG" !in AllowedMimes
  {
  }

  /** The MIME type is compared with its case: `IMAGE/PNG` is refused whatever the name. */
  lemma UpperCaseMimeRejected(name: string)
    ensures FileFilter("IMAGE/PNG", name) == Reject(ImagesOnly)
  {
    UpperCaseMimeNotAllowed();
    RejectsDisallowedMime("IMAGE/PNG", name);
  }

  /** The two checks are independent: any two allowed types get the same
      verdict for a name, so `image/gif` with `cat.png` passes. */
  lemma AllowedMimesInterchangeable(mime1: string, mime2: string, originalname: string)
    requires mime1 in AllowedMimes && mime2 in AllowedMimes
    ensures FileFilter(mime1, originalname) == FileFilter(mime2, originalname)
  {
  }

  /** `image/gif` is an allowed type. */
  lemma GifAllowed()
    ensures "image/gif" in AllowedMimes
  {
    assert AllowedMimes[2] == "image/gif";
  }

  /** `.png` is an allowed extension as written. */
  lemma PngAllowed()
    ensures ToLower(".png") in AllowedExts
  {
    assert ToLower(".png") == ".png";
  }

  /** A GIF type with a PNG name passes: nothing requires the type and the
      extension to name the same format. */
  lemma MismatchedPairAccepted(stem: string)
    requires stem != [] && stem[|stem| - 1] != '/'
    ensures FileFilter("image/gif", stem + ".png").Accept?
  {
    var tail := "png";
    assert tail[0] == 'p' && tail[1] == 'n' && tail[2] == 'g';
    assert "." + tail == ".png";
    assert stem + ".png" == stem + "." + tail;
    GifAllowed();
    PngAllowed();
    LastExtensionDecides("image/gif", stem, tail);
  }
}

=== FILE: handler.dfy ===
/** The `/upload` route (app.js:76-106) together with the part of multer it
    configures (app.js:33-60): the file filter runs first, the disk storage
    names and writes an accepted file, and the route's callback then picks
    one of four pages. Multipart parsing, the disk write and the document
    store's `save()` are outside the model; their outcomes are inputs. */
module UploadHandler {
  import opened Common
  import opened UploadFilter
  import opened Naming
  import opened Paths

  /** What multipart parsing finds for the single file field `image`. A file
      part carries the values the parser hands to multer, not the client's
      raw header: the declared type lower-cased without its parameters, and
      the base name of the file name (see `IsParsedName`), which is empty
      when the client sent an empty name, a name ending in a separator, `.`
      or `..`. multer itself skips a part whose name is empty, which `Upload`
      models. */
  datatype Incoming =
    | MalformedBody(message: string)
    | NoFilePart
    | FilePart(mimetype: string, originalname: string)

  /** A file name as the parser delivers it when paths are not preserved:
      no `/` or `\` separator, and never `.` or `..`. */
  predicate IsParsedName(name: string) {
    && (forall k :: 0 <= k < |name| ==> name[k] != '/' && name[k] != '\\')
    && name != "."
    && name != ".."
  }

  /** Outcome of writing an accepted file into `uploads/`. */
  datatype DiskWrite = Written | WriteFailed(message: string)

  /** `req.file` once the storage engine has written the file. */
  datatype StoredFile = StoredFile(filename: string, originalname: string, mimetype: string)

  /** What the route's callback sees: an `err`, no `req.file`, or a stored `req.file`. */
  datatype UploadResult =
    | UploadFailed(message: string)
    | NoFile
    | FileStored(file: StoredFile)

  /** The upload result, and the name the storage engine was asked to write, if any. */
  datatype UploadStep = UploadStep(result: UploadResult, writeAttempt: Option<string>)

  /** multer's `.single('image')` with the disk storage and the file filter.
      A file part with an empty name is drained without reaching the filter,
      so the route sees no file; a rejected file is never written; an
      accepted one is written under `StoredName(now, originalname)`, where
      `now` is the clock reading the `filename` callback takes. */
  function Upload(incoming: Incoming, now: nat, disk: DiskWrite): (step: UploadStep)
    ensures step.writeAttempt.Some? <==>
      && incoming.FilePart?
      && incoming.originalname != []
      && FileFilter(incoming.mimetype, incoming.originalname).Accept?
    ensures step.writeAttempt.Some? ==> step.writeAttempt.value == StoredName(now, incoming.originalname)
    ensures step.result.FileStored? <==> step.writeAttempt.Some? && disk.Written?
    ensures step.result.FileStored? ==>
      step.result.file == StoredFile(step.writeAttempt.value, incoming.originalname, incoming.mimetype)
    ensures step.result.NoFile? <==> incoming.NoFilePart? || (incoming.FilePart? && incoming.originalname == [])
    ensures (incoming.FilePart? && incoming.originalname != []
             && FileFilter(incoming.mimetype, incoming.originalname).Reject?) ==>
      step.result == UploadFailed(ImagesOnly)
  {
    match incoming
    case MalformedBody(message) => UploadStep(UploadFailed(message), None)
    case NoFilePart => UploadStep(NoFile, None)
    case FilePart(mimetype, originalname) =>
      if originalname == [] then UploadStep(NoFile, None)
      else match FileFilter(mimetype, originalname)
      case Reject(message) => UploadStep(UploadFailed(message), None)
      case Accept =>
        var filename := StoredName(now, originalname);
        match disk
        case WriteFailed(message) => UploadStep(UploadFailed(message), Some(filename))
        case Written => UploadStep(FileStored(StoredFile(filename, originalname, mimetype)), Some(filename))
  }

  /** The document `new Image({...})` builds. The handler sets `filename` and
      `originalName`; the schema's default sets `uploadDate` to the clock
      reading at construction, in milliseconds. */
  datatype ImageDoc = ImageDoc(filename: string, originalName: string, uploadDate: nat)

  /** Outcome of `newImage.save()`. */
  datatype SaveResult = Saved | SaveFailed(detail: string)

  /** The four pages the route can send; the success page shows the URL only. */
  datatype Page =
    | UploadErrorPage(message: string)
    | NoFilePage
    | DbErrorPage(detail: string)
    | SuccessPage(url: string)

  /** The page sent, and the document handed to `save()`, if any. */
  datatype Handled = Handled(page: Page, saveAttempt: Option<ImageDoc>)

  /** The document for a stored file, built at clock reading `createdAt`. */
  function NewImage(file: StoredFile, createdAt: nat): (doc: ImageDoc)
    ensures doc.filename == file.filename && doc.originalName == file.originalname
    ensures doc.uploadDate == createdAt
  {
    ImageDoc(file.filename, file.originalname, createdAt)
  }

  /** The route's callback: an upload error wins over a missing file, a
      document is saved only for a stored file, and the success page, with
      the public URL, is sent only when the save succeeds. `createdAt` is
      the clock reading when the document is built. */
  function Respond(upload: UploadResult, createdAt: nat, save: SaveResult, protocol: string, host: string): (h: Handled)
    ensures upload.UploadFailed? ==> h == Handled(UploadErrorPage(upload.message), None)
    ensures upload.NoFile? ==> h == Handled(NoFilePage, None)
    ensures h.saveAttempt.Some? <==> upload.FileStored?
    ensures h.saveAttempt.Some? ==>
      h.saveAttempt.value.filename == upload.file.filename
      && h.saveAttempt.value.originalName == upload.file.originalname
      && h.saveAttempt.value.uploadDate == createdAt
    ensures h.page.SuccessPage? <==> upload.FileStored? && save.Saved?
    ensures h.page.SuccessPage? ==> h.page.url == ImageUrl(protocol, host, upload.file.filename)
    ensures h.page.DbErrorPage? <==> upload.FileStored? && save.SaveFailed?
    ensures h.page.DbErrorPage? ==> h.page.detail == save.detail
  {
    match upload
    case UploadFailed(message) => Handled(UploadErrorPage(message), None)
    case NoFile => Handled(NoFilePage, None)
    case FileStored(file) =>
      var doc := NewImage(file, createdAt);
      match save
      case SaveFailed(detail) => Handled(DbErrorPage(detail), Some(doc))
      case Saved => Handled(SuccessPage(ImageUrl(protocol, host, file.filename)), Some(doc))
  }

  /** One POST to `/upload`. */
  datatype Request = Request(incoming: Incoming, protocol: string, host: string)

  /** Everything one request does: the page, the write and the save it asked for. */
  datatype Exchange = Exchange(page: Page, writeAttempt: Option<string>, saveAttempt: Option<ImageDoc>)

  /** One request: `now` is the clock reading that names the file and
      `createdAt` the one the document's default takes. */
  function HandleUpload(req: Request, now: nat, disk: DiskWrite, createdAt: nat, save: SaveResult): (x: Exchange)
    ensures x.saveAttempt.Some? ==> x.writeAttempt == Some(x.saveAttempt.value.filename)
    ensures x.page.SuccessPage? || x.page.DbErrorPage? <==> x.saveAttempt.Some?
  {
    var step := Upload(req.incoming, now, disk);
    var h := Respond(step.result, createdAt, save, req.protocol, req.host);
    Exchange(h.page, step.writeAttempt, h.saveAttempt)
  }

  /** Nothing is saved unless the filter accepted the file and the disk write
      succeeded, and what is saved names the file that was written
      (write-then-record). */
  lemma NoSaveUnlessAccepted(req: Request, now: nat, disk: DiskWrite, createdAt: nat, save: SaveResult)
    ensures var x := HandleUpload(req, now, disk, createdAt, save);
      x.saveAttempt.Some? ==>
        && req.incoming.FilePart?
        && FileFilter(req.incoming.mimetype, req.incoming.originalname).Accept?
        && disk.Written?
        && x.writeAttempt == Some(x.saveAttempt.value.filename)
  {
  }

  /** A file the filter refuses gets the `Error: Images only!` page, and is
      neither written nor recorded. */
  lemma RejectedFileLeavesNoTrace(req: Request, now: nat, disk: DiskWrite, createdAt: nat, save: SaveResult)
    requires req.incoming.FilePart? && req.incoming.originalname != []
    requires FileFilter(req.incoming.mimetype, req.incoming.originalname).Reject?
    ensures HandleUpload(req, now, disk, createdAt, save) == Exchange(UploadErrorPage(ImagesOnly), None, None)
  {
  }

  /** A request without a file part, or whose file part has an empty name,
      gets the no-file page and has no side effects. */
  lemma MissingFileLeavesNoTrace(req: Request, now: nat, disk: DiskWrite, createdAt: nat, save: SaveResult)
    requires req.incoming.NoFilePart? || (req.incoming.FilePart? && req.incoming.originalname == [])
    ensures HandleUpload(req, now, disk, createdAt, save) == Exchange(NoFilePage, None, None)
  {
  }

  /** The success page is sent exactly when an accepted file was written and
      its document saved. */
  lemma SuccessIff(req: Request, now: nat, disk: DiskWrite, createdAt: nat, save: SaveResult)
    ensures HandleUpload(req, now, disk, createdAt, save).page.SuccessPage? <==>
      && req.incoming.FilePart?
      && FileFilter(req.incoming.mimetype, req.incoming.originalname).Accept?
      && disk.Written?
      && save.Saved?
  {
    if req.incoming.FilePart? && req.incoming.originalname == [] {
      EmptyNameRejected(req.incoming.mimetype);
    }
  }

  /** On success, the page links to `protocol://host/uploads/` followed by the
      stored name, a link that ends with the client's file name, and the
      document saved holds the stored name, the client's name unmodified and
      the construction time. */
  lemma SuccessPageContents(req: Request, now: nat, disk: DiskWrite, createdAt: nat, save: SaveResult)
    requires req.incoming.FilePart?
    ensures var x := HandleUpload(req, now, disk, createdAt, save);
      x.page.SuccessPage? ==>
        var stored := StoredName(now, req.incoming.originalname);
        && x.page.url == ImageUrl(req.protocol, req.host, stored)
        && IsSuffix(req.incoming.originalname, x.page.url)
        && x.saveAttempt == Some(ImageDoc(stored, req.incoming.originalname, createdAt))
  {
    ImageUrlEndsWithName(req.protocol, req.host, now, req.incoming.originalname);
  }

  /** A failing save yields the database-error page after the file was
      written: the orphaned file is not removed. */
  lemma SaveFailureAfterWrite(req: Request, now: nat, disk: DiskWrite, createdAt: nat, save: SaveResult)
    ensures var x := HandleUpload(req, now, disk, createdAt, save);
      x.page.DbErrorPage? <==>
        && req.incoming.FilePart?
        && FileFilter(req.incoming.mimetype, req.incoming.originalname).Accept?
        && disk.Written?
        && save.SaveFailed?
    ensures var x := HandleUpload(req, now, disk, createdAt, save);
      x.page.DbErrorPage? ==> x.writeAttempt.Some? && x.saveAttempt.Some?
  {
    if req.incoming.FilePart? && req.incoming.originalname == [] {
      EmptyNameRejected(req.incoming.mimetype);
    }
  }

  /** The same file uploaded at two different times is stored under two
      different names: there is no deduplication. */
  lemma NoDeduplication(req: Request, now1: nat, now2: nat, disk: DiskWrite, createdAt: nat, save: SaveResult)
    requires req.incoming.FilePart? && now1 != now2
    ensures HandleUpload(req, now1, disk, createdAt, save).writeAttempt.Some? ==>
      HandleUpload(req, now1, disk, createdAt, save).writeAttempt
        != HandleUpload(req, now2, disk, createdAt, save).writeAttempt
  {
    StoredNameInjective(now1, req.incoming.originalname, now2, req.incoming.originalname);
  }

  /** An error from the multipart parser is reported as such, even though
      no file may be present, and nothing is written or saved. */
  lemma ParseErrorWins(req: Request, now: nat, disk: DiskWrite, createdAt: nat, save: SaveResult)
    requires req.incoming.MalformedBody?
    ensures HandleUpload(req, now, disk, createdAt, save) == Exchange(UploadErrorPage(req.incoming.message), None, None)
  {
  }

  /** When writing an accepted file fails, the storage error is reported,
      and no document is saved. */
  lemma WriteFailureReported(req: Request, now: nat, disk: DiskWrite, createdAt: nat, save: SaveResult)
    requires req.incoming.FilePart?
    requires FileFilter(req.incoming.mimetype, req.incoming.originalname).Accept?
    requires disk.WriteFailed?
    ensures var x := HandleUpload(req, now, disk, createdAt, save);
      && x.page == UploadErrorPage(disk.message)
      && x.writeAttempt == Some(StoredName(now, req.incoming.originalname))
      && x.saveAttempt.None?
  {
    if req.incoming.originalname == [] {
      EmptyNameRejected(req.incoming.mimetype);
    }
  }

  /** For a parsed file name, the success link's text after its last `/` is
      exactly the stored file's name. The link is not percent-encoded, so
      this is about the link's text, not about what a browser requests. */
  lemma SuccessLinkNamesStoredFile(req: Request, now: nat, disk: DiskWrite, createdAt: nat, save: SaveResult)
    ensures var x := HandleUpload(req, now, disk, createdAt, save);
      x.page.SuccessPage? && IsParsedName(req.incoming.originalname) ==>
        var u := x.page.url;
        var stored := StoredName(now, req.incoming.originalname);
        SegmentStart(u, |u|) == |u| - |stored| && u[|u| - |stored|..] == stored
  {
    var x := HandleUpload(req, now, disk, createdAt, save);
    if x.page.SuccessPage? && IsParsedName(req.incoming.originalname) {
      var stored := StoredName(now, req.incoming.originalname);
      StoredNameSeparators(now, req.incoming.originalname);
      ImageUrlNamesFile(req.protocol, req.host, stored);
    }
  }
}

=== FILE: naming.dfy ===
/** The names the upload path invents: the stored file name that the disk
    storage's `filename` callback builds (app.js:37-41) and the public URL the
    success page shows (app.js:93). */
module Naming {
  import opened Common
  import opened Decimal
  import opened Paths

  /** Index of the first occurrence of `c` in `s`. */
  function FirstIndexOf(s: string, c: char): (r: Option<nat>)
    ensures r.None? ==> forall k :: 0 <= k < |s| ==> s[k] != c
    ensures r.Some? ==> r.value < |s| && s[r.value] == c
    ensures r.Some? ==> forall k :: 0 <= k < r.value ==> s[k] != c
  {
    if s == [] then None
    else if s[0] == c then Some(0)
    else match FirstIndexOf(s[1..], c)
      case None => None
      case Some(i) => Some(i + 1)
  }

  /** The name the file is written under: the upload time in milliseconds, a
      dash, and the client's file name unchanged. */
  function StoredName(now: nat, originalName: string): (s: string)
    ensures IsSuffix(originalName, s)
    ensures |s| > |originalName|
  {
    NatToString(now) + "-" + originalName
  }

  /** Splits a stored name at its first dash into the timestamp and the
      original name; `None` when the part before the dash is not a canonical
      decimal number. */
  function SplitStoredName(s: string): (r: Option<(nat, string)>)
    ensures r.Some? ==> IsSuffix(r.value.1, s) && |r.value.1| < |s|
  {
    match FirstIndexOf(s, '-')
    case None => None
    case Some(i) =>
      if IsCanonical(s[..i]) then Some((ParseNat(s[..i]), s[i + 1..])) else None
  }

  /** Dropping everything up to and including the first dash recovers the
      original name, and the digits before it recover the timestamp. */
  lemma StoredNameRoundTrip(now: nat, originalName: string)
    ensures SplitStoredName(StoredName(now, originalName)) == Some((now, originalName))
  {
    var digits := NatToString(now);
    var s := StoredName(now, originalName);
    assert s[|digits|] == '-';
    assert forall k :: 0 <= k < |digits| ==> s[k] == digits[k] && IsDigit(s[k]);
    assert FirstIndexOf(s, '-') == Some(|digits|);
    assert s[..|digits|] == digits;
    assert s[|digits| + 1..] == originalName;
    ParseNatToString(now);
  }

  /** Whatever `SplitStoredName` accepts is a stored name it came from. */
  lemma SplitStoredNameSound(s: string, now: nat, originalName: string)
    requires SplitStoredName(s) == Some((now, originalName))
    ensures StoredName(now, originalName) == s
  {
    var i := FirstIndexOf(s, '-').value;
    NatToStringOfParse(s[..i]);
    assert s == s[..i] + "-" + s[i + 1..];
  }

  /** A name is a stored name exactly when `SplitStoredName` yields its parts. */
  lemma StoredNameIff(s: string, now: nat, originalName: string)
    ensures SplitStoredName(s) == Some((now, originalName)) <==> s == StoredName(now, originalName)
  {
    if s == StoredName(now, originalName) {
      StoredNameRoundTrip(now, originalName);
    }
    if SplitStoredName(s) == Some((now, originalName)) {
      SplitStoredNameSound(s, now, originalName);
    }
  }

  /** Two uploads get the same stored name only with the same timestamp and the
      same original name; in particular the same file uploaded at two
      different times is stored twice. */
  lemma StoredNameInjective(now1: nat, name1: string, now2: nat, name2: string)
    ensures StoredName(now1, name1) == StoredName(now2, name2) <==> now1 == now2 && name1 == name2
  {
    StoredNameRoundTrip(now1, name1);
    StoredNameRoundTrip(now2, name2);
  }

  /** The URL path under which stored files are served statically (app.js:15). */
  const UploadsPath: string := "/uploads/"

  /** The public link to a stored file: the request's protocol and host,
      then the static uploads path and the stored name. */
  function ImageUrl(protocol: string, host: string, filename: string): (u: string)
    ensures |u| == |protocol| + 3 + |host| + |UploadsPath| + |filename|
    ensures u[..|protocol|] == protocol && u[|protocol|..|protocol| + 3] == "://"
    ensures u[|protocol| + 3..|protocol| + 3 + |host|] == host
    ensures IsSuffix(UploadsPath + filename, u)
  {
    protocol + "://" + host + UploadsPath + filename
  }

  /** For a file name without separators, the URL's text after its last `/`
      is exactly that name. */
  lemma ImageUrlNamesFile(protocol: string, host: string, filename: string)
    requires forall k :: 0 <= k < |filename| ==> filename[k] != '/'
    ensures var u := ImageUrl(protocol, host, filename);
      SegmentStart(u, |u|) == |u| - |filename| && u[|u| - |filename|..] == filename
  {
    var u := ImageUrl(protocol, host, filename);
    var off := |u| - |filename|;
    assert u[off - 1] == '/';
    assert forall k :: off <= k < |u| ==> u[k] == filename[k - off];
    SegmentStartIs(u, |u|, off);
  }

  /** The link to a stored upload ends with the name the client gave it. */
  lemma ImageUrlEndsWithName(protocol: string, host: string, now: nat, originalName: string)
    ensures IsSuffix(originalName, ImageUrl(protocol, host, StoredName(now, originalName)))
  {
    var stored := StoredName(now, originalName);
    var u := ImageUrl(protocol, host, stored);
    assert u[|u| - |stored|..] == stored;
    assert u[|u| - |originalName|..] == stored[|stored| - |originalName|..];
  }

  /** A stored name holds a separator only where the client's name does:
      the timestamp digits and the dash are not separators. */
  lemma StoredNameSeparators(now: nat, originalName: string)
    requires forall k :: 0 <= k < |originalName| ==> originalName[k] != '/'
    ensures var s := StoredName(now, originalName);
      forall k :: 0 <= k < |s| ==> s[k] != '/'
  {
    var digits := NatToString(now);
    var s := StoredName(now, originalName);
    assert forall k :: 0 <= k < |digits| ==> s[k] == digits[k] && IsDigit(s[k]);
    assert forall k :: |digits| < k < |s| ==> s[k] == originalName[k - |digits| - 1];
  }
}

=== FILE: paths.dfy ===
/** Node's POSIX `path.extname`, written out as explicit string functions.
    Every position below is an index into the path `p` itself.  The extension
    is taken from the last segment of `p` once trailing separators are
    dropped: it runs from the last `.` of that segment to the segment's end,
    and is empty when the segment has no `.`, when that dot is the segment's
    first character (as in `.png`, but not `.a.png`), or when the segment is
    exactly `..`. */
module Paths {
  import opened Common
  import opened Ascii

  /** Scanning down from `i`: the end of `p[..i]` once its trailing `/` are dropped. */
  function TrimEndFrom(p: string, i: nat): (n: nat)
    requires i <= |p|
    ensures n <= i
    ensures n == 0 || p[n - 1] != '/'
    ensures forall k :: n <= k < i ==> p[k] == '/'
  {
    if i > 0 && p[i - 1] == '/' then TrimEndFrom(p, i - 1) else i
  }

  /** The length of `p` without its trailing `/` characters. */
  function TrimEnd(p: string): (n: nat)
    ensures n <= |p|
  {
    TrimEndFrom(p, |p|)
  }

  /** Scanning down from `i`: where the segment ending at `i` starts, just
      after the nearest `/` before `i` (or at 0). */
  function SegmentStart(p: string, i: nat): (s: nat)
    requires i <= |p|
    ensures s <= i
    ensures s == 0 || p[s - 1] == '/'
    ensures forall k :: s <= k < i ==> p[k] != '/'
  {
    if i == 0 || p[i - 1] == '/' then i else SegmentStart(p, i - 1)
  }

  /** The index of the last `.` in `p[lo..hi]`, if there is one. */
  function LastDot(p: string, lo: nat, hi: nat): (r: Option<nat>)
    requires lo <= hi <= |p|
    ensures r.None? ==> forall k :: lo <= k < hi ==> p[k] != '.'
    ensures r.Some? ==> lo <= r.value < hi && p[r.value] == '.'
    ensures r.Some? ==> forall k :: r.value < k < hi ==> p[k] != '.'
  {
    if lo == hi then None
    else if p[hi - 1] == '.' then Some(hi - 1)
    else LastDot(p, lo, hi - 1)
  }

  /** Where the extension of `p` starts, or `None` when it is empty. */
  function ExtStart(p: string): (r: Option<nat>)
    ensures r.Some? ==> 0 < r.value < TrimEnd(p) && p[r.value] == '.' && p[r.value - 1] != '/'
    ensures r.Some? ==> forall k :: r.value < k < TrimEnd(p) ==> p[k] != '.' && p[k] != '/'
  {
    var n := TrimEnd(p);
    var start := SegmentStart(p, n);
    match LastDot(p, start, n)
    case None => None
    case Some(d) =>
      if d == start || (n == start + 2 && p[start] == '.') then None else Some(d)
  }

  /** `path.extname(p)` on POSIX. */
  function Extname(p: string): (e: string)
    ensures var n := TrimEnd(p);
      |e| <= n && e == p[n - |e|..n]
    ensures var n := TrimEnd(p);
      e != [] ==> |e| < n && p[n - |e|] == '.' && p[n - |e| - 1] != '/'
    ensures var n := TrimEnd(p);
      forall k :: n - |e| < k < n ==> p[k] != '.' && p[k] != '/'
  {
    match ExtStart(p)
    case None => ""
    case Some(d) => p[d..TrimEnd(p)]
  }

  /** A dot at `j`, preceded by a character of the same segment and followed,
      up to the trailing separators, only by characters that are neither dots
      nor separators, starts the extension, unless the whole segment is `..`. */
  lemma ExtnameAt(p: string, j: nat)
    requires 0 < j < TrimEnd(p) && p[j] == '.' && p[j - 1] != '/'
    requires forall k :: j < k < TrimEnd(p) ==> p[k] != '.' && p[k] != '/'
    requires !(j == TrimEnd(p) - 1 && p[j - 1] == '.' && (j == 1 || p[j - 2] == '/'))
    ensures Extname(p) == p[j..TrimEnd(p)]
  {
    var n := TrimEnd(p);
    var start := SegmentStart(p, n);
    assert start < j by {
      assert forall k :: j - 1 <= k < n ==> p[k] != '/';
    }
    LastDotIs(p, start, n, j);
  }

  /** A segment without any dot has no extension. */
  lemma ExtnameNoDot(p: string)
    requires forall k :: 0 <= k < |p| ==> p[k] != '.'
    ensures Extname(p) == ""
  {
    var n := TrimEnd(p);
    assert LastDot(p, SegmentStart(p, n), n) == None;
  }

  /** A dot-file (a segment whose only dot is its first character) has no extension. */
  lemma ExtnameDotFile(dir: string, rest: string)
    requires dir == [] || dir[|dir| - 1] == '/'
    requires forall k :: 0 <= k < |rest| ==> rest[k] != '.' && rest[k] != '/'
    ensures Extname(dir + "." + rest) == ""
  {
    var p := dir + "." + rest;
    var j := |dir|;
    assert p[j] == '.';
    assert forall k :: j < k < |p| ==> p[k] == rest[k - j - 1];
    assert j == 0 || p[j - 1] == '/';
    assert p[|p| - 1] != '/';
    assert TrimEnd(p) == |p|;
    assert SegmentStart(p, |p|) == j;
    assert LastDot(p, j, |p|) == Some(j);
  }

  /** The usual file name: a stem, a dot, and a tail without dots or
      separators. The stem may hold any dots, `a..png` included; the one
      exception is the segment `..` itself. */
  lemma ExtnameOfStemAndTail(stem: string, tail: string)
    requires stem != [] && stem[|stem| - 1] != '/'
    requires !(tail == [] && stem[|stem| - 1] == '.' && (|stem| == 1 || stem[|stem| - 2] == '/'))
    requires forall k :: 0 <= k < |tail| ==> tail[k] != '.' && tail[k] != '/'
    ensures Extname(stem + "." + tail) == "." + tail
  {
    var p := stem + "." + tail;
    var j := |stem|;
    assert p[j..] == "." + tail;
    assert p[j] == '.' && p[j - 1] == stem[j - 1];
    assert forall k :: j < k < |p| ==> p[k] == tail[k - j - 1];
    assert p[|p| - 1] != '/';
    assert TrimEnd(p) == |p|;
    ExtnameAt(p, j);
  }

  /** The segment `..` has no extension. */
  lemma ExtnameDotDot(dir: string)
    requires dir == [] || dir[|dir| - 1] == '/'
    ensures Extname(dir + "..") == ""
  {
    var p := dir + "..";
    var j := |dir|;
    assert p[j] == '.' && p[j + 1] == '.';
    assert TrimEnd(p) == |p|;
    SegmentStartIs(p, |p|, j);
    LastDotIs(p, j, |p|, j + 1);
  }

  /** Two strings with separators and dots in the same places. */
  predicate SameLandmarks(p: string, q: string) {
    |p| == |q| && forall k :: 0 <= k < |p| ==> (p[k] == '/' <==> q[k] == '/') && (p[k] == '.' <==> q[k] == '.')
  }

  lemma {:induction false} TrimEndFromLandmarks(p: string, q: string, i: nat)
    requires SameLandmarks(p, q) && i <= |p|
    ensures TrimEndFrom(p, i) == TrimEndFrom(q, i)
    decreases i
  {
    if i > 0 && p[i - 1] == '/' {
      TrimEndFromLandmarks(p, q, i - 1);
    }
  }

  lemma {:induction false} SegmentStartLandmarks(p: string, q: string, i: nat)
    requires SameLandmarks(p, q) && i <= |p|
    ensures SegmentStart(p, i) == SegmentStart(q, i)
    decreases i
  {
    if i > 0 && p[i - 1] != '/' {
      SegmentStartLandmarks(p, q, i - 1);
    }
  }

  lemma {:induction false} LastDotLandmarks(p: string, q: string, lo: nat, hi: nat)
    requires SameLandmarks(p, q) && lo <= hi <= |p|
    ensures LastDot(p, lo, hi) == LastDot(q, lo, hi)
    decreases hi
  {
    if lo < hi && p[hi - 1] != '.' {
      LastDotLandmarks(p, q, lo, hi - 1);
    }
  }

  /** The extension's position depends only on where the separators and
      dots are, not on the other characters. */
  lemma ExtStartLandmarks(p: string, q: string)
    requires SameLandmarks(p, q)
    ensures TrimEnd(p) == TrimEnd(q)
    ensures ExtStart(p) == ExtStart(q)
  {
    TrimEndFromLandmarks(p, q, |p|);
    var n := TrimEnd(p);
    SegmentStartLandmarks(p, q, n);
    var start := SegmentStart(p, n);
    LastDotLandmarks(p, q, start, n);
  }

  /** The extension of a lower-cased name is the lower-cased extension. */
  lemma ExtnameLower(p: string)
    ensures Extname(ToLower(p)) == ToLower(Extname(p))
  {
    var lp := ToLower(p);
    forall k | 0 <= k < |p|
      ensures (p[k] == '/' <==> lp[k] == '/') && (p[k] == '.' <==> lp[k] == '.')
    {
      LowerCharReflects(p[k], '/');
      LowerCharReflects(p[k], '.');
    }
    ExtStartLandmarks(p, lp);
    match ExtStart(p)
    case None =>
    case Some(d) => ToLowerSlice(p, d, TrimEnd(p));
  }

  /** `LastDot` is fixed by its contract: a dot with none after it is the one found. */
  lemma LastDotIs(p: string, lo: nat, hi: nat, d: nat)
    requires lo <= d < hi <= |p| && p[d] == '.'
    requires forall k :: d < k < hi ==> p[k] != '.'
    ensures LastDot(p, lo, hi) == Some(d)
  {
  }

  /** `SegmentStart` is fixed by its contract. */
  lemma SegmentStartIs(p: string, i: nat, s: nat)
    requires s <= i <= |p| && (s == 0 || p[s - 1] == '/')
    requires forall k :: s <= k < i ==> p[k] != '/'
    ensures SegmentStart(p, i) == s
  {
  }
}
